=== FILE: README.md ===
# Otakon service layer, modelled in Dafny

Otakon is a browser gaming assistant. Its service layer has three parts:
- a chat service that talks to a hosted language model;
- a relay socket to a companion desktop app, which pushes screenshots;
- a small helper that takes apart the data URL of an attached screenshot.

This project models the stateful logic of those three parts and proves what
they promise.

- **Chat service** (`gemini_service.dfy`, module `GeminiService`).
  - The model covers:
    - the chat session, created lazily and reused until reset;
    - the quota cooldown, kept in persisted storage under `geminiCooldownEnd`;
    - the same-day news cache under `otakonNewsCache`;
    - the classifier that turns a thrown error into the message shown to the user;
    - the `for await` loop that hands streamed text to the caller until the user aborts.
  - Each operation has a pure specification function: `CheckCooldown`, `ClearCooldown`, `ErrorOutcome`, `NewsEffect` and `SendEffect`.
  - The class `GeminiClient` holds the module state `chat` and `store` as fields. Its methods update that state step by step. `HandleSuccess`, `HandleError`, `GetGameNews`, `ReceiveStream` and both sends are each proved equal to one of those functions. `GetChatSession`, `IsChatActive` and `ResetChat` have no specification function: their contracts state the new session and storage directly.
- **Relay client** (`websocket_service.dfy`, module `WebsocketService`).
  - The module state `ws` and `connectionErrorHandled` is a `Relay` value. Each socket handler is a step function on it.
  - The class `RelayClient` performs the same steps in place.
  - `Run` feeds a sequence of socket events through the handlers. The lemmas over it prove that an attempt reports at most one error.
- **Data URL** (`file_data.dfy`, module `FileData`). This models `split(',')`, `split(';')[0]` and `split(':')[1]` on a `data:<type>;base64,<payload>` URL, as described in section 3 of RFC 2397.
- **Library semantics** (`js_strings.dfy`, `js_numbers.dfy`, `js_values.dfy`). These define the JavaScript operations the code relies on:
  - `String.prototype.split` and `includes`;
  - `Number.prototype.toString` and `parseInt(s, 10)`, including leading white space and `NaN`;
  - truthiness;
  - property reads on parsed JSON;
  - template-literal conversion.

### Inputs instead of effects

Everything the code gets from outside is an input:
- the clock is `now`, and the calendar date (`toLocaleDateString('en-CA')`) is `today`;
- `JSON.parse` and `JSON.stringify` form a `JsonCodec`;
- the session the SDK factory would create is `created`;
- the SDK stream is a `Stream`: either rejected, or a sequence of text fragments that may end by throwing;
- the news request's result is a `Fetch`. A failed request also carries the clock reading `handleError` takes (`Date.now()` at geminiService.ts:103), which comes after the awaited request and so differs from the reading of the cooldown check;
- the abort signal is `abortAt`, the first loop check at which the signal reads aborted.

Callbacks are not run. Each operation returns the calls it would make, in order, as a sequence of `Call` values.

### Behaviour of the code worth noting

- **Sends ignore the cooldown.** Only `getGameNews` checks the cooldown (`src/services/geminiService.ts:142`). `sendMessage` and `sendMessageWithImage` go straight to the provider, and the model does the same.
- **The cooldown is cleared before the chunks.** `handleSuccess` runs as soon as the stream is obtained, before any chunk. A later non-quota failure of the stream leaves the cooldown cleared; a later quota failure starts it again.
- **An empty stored value survives.** `handleSuccess` removes the cooldown only when the stored value is truthy. An empty string is falsy, so it stays in storage. It is also never read as a cooldown.
- **Valid JSON without a provider message gives the default.** An error message that parses as JSON but has no truthy `error.message` gives the unknown-error default. It does not give `Error: <message>`.
- **JSON `null` counts as unparseable.** An error message or a cache entry that parses to `null` makes the following property read throw. The model treats it like text that does not parse.

## Model

| member | source | states |
|---|---|---|
| JsStrings.Split | src/App.tsx:29-30 | `split` with a one-character separator: at least one piece; exactly `[s]` when the separator is absent; two or more pieces when it occurs; no piece contains the separator |
| JsStrings.JoinSplit | src/App.tsx:29 | splitting loses nothing: joining the pieces with the separator gives back the text |
| JsStrings.SplitAtFirst | src/App.tsx:29 | the first piece is the text before the first separator, and the remaining pieces are the split of what follows it |
| JsStrings.SplitFirstPrefix | src/App.tsx:29-30 | text without the separator in front of the split text becomes the start of the first piece |
| JsStrings.SplitPieceInText | src/App.tsx:30 | every character of a piece occurs in the text that was split |
| JsStrings.MissingCharNotContained | src/services/geminiService.ts:102 | `includes` is false when the pattern has a character the text lacks |
| JsNumbers.NatToString | src/services/geminiService.ts:104 | the decimal text of a non-negative number is non-empty and all digits, with no leading zero except for `0` itself |
| JsNumbers.IntToString | src/services/geminiService.ts:104 | `toString` of an integer starts with a minus sign exactly when it is negative; the digits of the number follow, with no leading zero except for `0` itself |
| JsNumbers.TrimStart | src/services/geminiService.ts:129 | `parseInt` skips leading white space: the result is a suffix of the input that does not start with white space, and everything dropped in front of it is white space |
| JsNumbers.DigitPrefix | src/services/geminiService.ts:129 | what `parseInt` reads after the sign is all digits and no longer than the text |
| JsNumbers.DigitPrefixIsLongest | src/services/geminiService.ts:129 | those digits are a prefix of the text, and the character after them, if any, is not a digit: the longest run of digits |
| JsNumbers.NatToStringValue | src/services/geminiService.ts:104 | the digits written for `n` have the value `n` |
| JsNumbers.ParseIntOfDigits | src/services/geminiService.ts:129 | `parseInt` of a non-empty digit string is its decimal value |
| JsNumbers.ParseIntOfNegative | src/services/geminiService.ts:129 | a minus sign in front of a number negates what `parseInt` reads |
| JsNumbers.ParseIntOfNatToString | src/services/geminiService.ts:129 | `parseInt` reads the decimal text of a non-negative number back as that number |
| JsNumbers.ParseIntOfToString | src/services/geminiService.ts:104 | what `toString` writes for the cooldown end, `parseInt` reads back unchanged |
| JsValues.Property | src/services/geminiService.ts:116 | a property read gives a value exactly when the JSON value is an object that has that key, and then it is that key's value |
| GeminiService.MinutesRemaining | src/services/geminiService.ts:130 | `ceil((end - now) / 60000)`: at least 1 whenever `now < end`, and the smallest whole number of minutes covering the time left |
| GeminiService.CheckCooldown | src/services/geminiService.ts:127-135 | rejects exactly when a stored, parseable end lies after `now`, and then reports once with the minutes left; a missing or NaN value is no cooldown; otherwise it reports nothing |
| GeminiService.ClearCooldown | src/services/geminiService.ts:90-96 | afterwards no cooldown is active at any time; every other key is untouched; a value is kept only if it is the empty string, and then storage is unchanged |
| GeminiService.ClearCooldownIdempotent | src/services/geminiService.ts:90-96 | clearing the cooldown twice equals clearing it once |
| GeminiService.ErrorText | src/services/geminiService.ts:117-120 | every provider-detail message is `Error: ` followed by exactly the detail, and is never the quota marker |
| GeminiService.ErrorMessage | src/services/geminiService.ts:109-123 | the message for a non-quota error: the default for a non-Error value; the fixed text for an invalid key; `Error: <message>` when the message does not parse or parses to null; `Error: <error.message>` from parsed JSON that has it, else the default; never `QUOTA_EXCEEDED` |
| GeminiService.ErrorOutcome | src/services/geminiService.ts:98-125 | exactly one `onError`; a quota error (`RESOURCE_EXHAUSTED` in the text or HTTP 429) reports `QUOTA_EXCEEDED` and stores `now + 3600000`; any other error reports the classified message and leaves storage alone; no key but the cooldown ever changes |
| GeminiService.QuotaErrorStartsCooldown | src/services/geminiService.ts:102-106 | after a quota error the stored end reads back as `now + 3600000`; a cooldown is active at a later time exactly while that time is before the end, and `checkCooldown` then reports the minutes left |
| GeminiService.OtherErrorKeepsStore | src/services/geminiService.ts:109-124 | a non-quota error leaves storage unchanged and does not report `QUOTA_EXCEEDED` |
| GeminiService.NewsEffect | src/services/geminiService.ts:138-202 | exactly one callback; the news is requested exactly when no cooldown is active and the cache misses; a cooldown reports the wait and changes nothing; a same-day hit delivers the cached news; a successful request caches `{date: today, news}` and delivers the text; a corrupt entry is dropped before the request; a failed request has exactly the storage and the report of `handleError`, at the clock reading taken after the request |
| GeminiService.NewsCacheServesSameDay | src/services/geminiService.ts:145-197 | after a successful request, a later call on the same date delivers the same text without a request |
| GeminiService.NewsCacheExpiresNextDay | src/services/geminiService.ts:150 | an entry cached for one date is not served on another date, and the news is requested again |
| GeminiService.CorruptNewsEntryDropped | src/services/geminiService.ts:155-158 | an entry that does not parse is removed, and the request is still made |
| GeminiService.ChunkCalls | src/services/geminiService.ts:226 | one `onChunk` per fragment, in stream order |
| GeminiService.ConsumeStream | src/services/geminiService.ts:246-252 | the loop is aborted exactly when the signal is seen before the stream ends; it delivers exactly the fragments before that point, in order, and none at or after the abort |
| GeminiService.SendEffect | src/services/geminiService.ts:239-255 | a rejected request is handled as an error; an opened stream clears the cooldown and delivers a prefix of the fragments up to the abort; a stream that fails without an abort delivers every fragment and then has exactly the report and storage of `handleError` applied to the cleared storage |
| GeminiService.AbortStopsDelivery | src/services/geminiService.ts:246-250 | an aborted send delivers exactly the fragments before the abort, reports no error, and leaves the cooldown cleared |
| GeminiService.StreamFailureReportedLast | src/services/geminiService.ts:241-255 | a stream that fails after its fragments without an abort delivers them all and then reports once; a quota failure makes the cooldown active for exactly the next hour, any other failure leaves it cleared |
| GeminiService.CompletedStreamDeliversAll | src/services/geminiService.ts:241-252 | a stream that completes without abort is delivered whole, and afterwards no cooldown is active |
| GeminiService.GeminiClient.constructor | src/services/geminiService.ts:17 | a fresh service has no chat session and sees the persisted storage |
| GeminiService.GeminiClient.IsChatActive | src/services/geminiService.ts:79-81 | true exactly when a session is held |
| GeminiService.GeminiClient.GetChatSession | src/services/geminiService.ts:65-77 | creates a session only when none is held, and otherwise returns the held one; afterwards the session is held |
| GeminiService.GeminiClient.ResetChat | src/services/geminiService.ts:83-88 | forgets the session and removes the cooldown and the news cache, and nothing else; afterwards no cooldown is active and every cache lookup misses |
| GeminiService.GeminiClient.HandleSuccess | src/services/geminiService.ts:90-96 | the new storage is `ClearCooldown` of the old |
| GeminiService.GeminiClient.HandleError | src/services/geminiService.ts:98-125 | the new storage and the reported message are those of `ErrorOutcome`; the session is untouched |
| GeminiService.GeminiClient.GetGameNews | src/services/geminiService.ts:138-202 | the new storage, the callbacks and whether the request was made are those of `NewsEffect` |
| GeminiService.GeminiClient.ReceiveStream | src/services/geminiService.ts:241-255 | storage and callbacks after receiving a stream are those of `SendEffect` |
| GeminiService.GeminiClient.SendMessage | src/services/geminiService.ts:233-256 | the text goes to the held session, or to a new one when none is held; the session stays held; storage and callbacks are those of `SendEffect`, with no cooldown check |
| GeminiService.GeminiClient.SendMessageWithImage | src/services/geminiService.ts:204-231 | the same as `SendMessage`, with the image and its media type as the turn |
| GeminiService.NoUnderscoreNotQuota | src/services/geminiService.ts:102 | an error whose text has no underscore and that has no HTTP status is not a quota error |
| GeminiService.NoCapitalANotInvalidKey | src/services/geminiService.ts:111 | a message without a capital A is not an invalid-key message |
| GeminiService.ReferenceErrorReport | src/services/geminiService.ts:109-124 | a ReferenceError for an undeclared name is not a quota or invalid-key error and is reported as `Error: <name> is not defined`, storage untouched |
| GeminiService.SendAsWrittenAlwaysFails | src/services/geminiService.ts:65-68 | as written, the read of the undeclared `chat` throws, and every send reports `Error: chat is not defined` and nothing else, leaving storage unchanged |
| GeminiService.NewsAsWrittenAlwaysFails | src/services/geminiService.ts:180 | as written, every news request the cooldown and cache let through reports `Error: ai is not defined`, caches nothing, and leaves storage as it was apart from dropping a corrupt entry |
| GeminiService.RunStrict | src/services/geminiService.ts:79-88 | strict-mode statements run through exactly when every name they touch is declared, and then remove exactly their storage keys; when one throws, no other key has changed |
| GeminiService.RunStrictStopsAtFirstUndeclared | src/services/geminiService.ts:79-88 | the first statement that touches an undeclared name throws its ReferenceError; only the removals before it have happened |
| GeminiService.ResetChatAsWrittenThrows | src/services/geminiService.ts:83-88 | as written, `resetChat` throws a ReferenceError for `chat` at its first line and removes nothing |
| GeminiService.IsChatActiveAsWrittenThrows | src/services/geminiService.ts:79-81 | as written, `isChatActive` throws a ReferenceError for `chat` instead of answering |
| GeminiService.ResetChatWithChatDeclared | src/services/geminiService.ts:83-88 | once `chat` is declared, `resetChat` runs through and removes exactly the cooldown and the cached news |
| GeminiService.SendInScope | src/services/geminiService.ts:65-68 | the first send, given the declared names: with `chat` undeclared it is the `handleError` report of a ReferenceError for `chat`; with only `chat` declared, the same for `ai`; with both declared it is exactly `SendEffect` |
| GeminiService.SendWithOnlyChatDeclaredFailsOnAi | src/services/geminiService.ts:68 | declaring `chat` alone is not enough: the first send then reports `Error: ai is not defined` and leaves storage unchanged |
| GeminiService.SendWithSessionNamesDeclared | src/services/geminiService.ts:65-68 | once both `chat` and `ai` are declared, the session code goes through and a send is exactly the intended one |
| WebsocketService.RelayUrlCarriesCode | src/services/websocketService.ts:24 | the URL starts with the relay address, and the pairing code can be read back from it |
| WebsocketService.ConnectStep | src/services/websocketService.ts:5-32 | a live (open or connecting) socket makes `connect` do nothing; otherwise the error flag is reset; an invalid code reports once and opens nothing; a constructor failure reports once; a socket is opened only for a valid code, to the relay URL, in the connecting state and with no callback |
| WebsocketService.ConnectOpensRelaySocket | src/services/websocketService.ts:19-27 | past the guard with a valid code, the new socket is connecting to the URL that carries that code |
| WebsocketService.OpenStep | src/services/websocketService.ts:34-37 | `onOpen` is called once; the held socket is now open |
| WebsocketService.MessageStep | src/services/websocketService.ts:39-48 | `onMessage` is called exactly once: with the parsed value when the data parses, otherwise with the raw data; the state is unchanged |
| WebsocketService.ErrorStep | src/services/websocketService.ts:50-58 | reports the socket error only if this attempt has not reported one, and then marks it reported |
| WebsocketService.CloseErrorMessage | src/services/websocketService.ts:64-70 | code 1006 gives the desktop-app message and nothing else does; otherwise a non-empty reason gives `Connection closed: <reason> (Code: <code>)`; the generic message appears exactly when the code is not 1006 and the reason is empty |
| WebsocketService.CloseStep | src/services/websocketService.ts:60-76 | reports an error exactly when the close was unclean and nothing has been reported yet; always drops the handle and calls `onClose` once, last |
| WebsocketService.OpenEventsReportOnce | src/services/websocketService.ts:50-58 | before the close, an attempt reports at most one error, exactly when the flag went from unset to set |
| WebsocketService.AtMostOneErrorPerAttempt | src/services/websocketService.ts:50-72 | over any sequence of open, message and error events followed by a close, `onError` is called at most once |
| WebsocketService.DisconnectStep | src/services/websocketService.ts:79-85 | a held socket is closed with code 1000 and reason `User disconnected`; without one nothing is closed; the handle is dropped either way |
| WebsocketService.DisconnectIdempotent | src/services/websocketService.ts:79-85 | disconnecting twice equals disconnecting once: the second call closes nothing and changes nothing |
| WebsocketService.RelayClient.constructor | src/services/websocketService.ts:1-2 | the client starts with no socket and the flag unset |
| WebsocketService.RelayClient.Connect | src/services/websocketService.ts:5-32 | the new state and callbacks are those of `ConnectStep` |
| WebsocketService.RelayClient.HandleOpen | src/services/websocketService.ts:34-37 | the new state and callbacks are those of `OpenStep` |
| WebsocketService.RelayClient.HandleMessage | src/services/websocketService.ts:39-48 | the callbacks are those of `MessageStep`, and the state is unchanged |
| WebsocketService.RelayClient.HandleError | src/services/websocketService.ts:50-58 | the new state and callbacks are those of `ErrorStep` |
| WebsocketService.RelayClient.HandleClose | src/services/websocketService.ts:60-76 | the new state and callbacks are those of `CloseStep` |
| WebsocketService.RelayClient.Disconnect | src/services/websocketService.ts:79-85 | the new state and the close call are those of `DisconnectStep` |
| FileData.Element | src/App.tsx:29-30 | reading past the end of the pieces gives `undefined` |
| FileData.ParseDataUrl | src/App.tsx:29-31 | the data URL is returned unchanged; the payload is missing exactly when there is no comma; neither part contains a separator it was cut at |
| FileData.Base64AfterFirstComma | src/App.tsx:29 | the payload is the text between the first comma and the next comma or the end |
| FileData.MimeTypeOfHeader | src/App.tsx:30 | the media type is the text between the first colon and the next colon or semicolon of the header; a header with no semicolon, such as `data:text/plain,x`, is covered |
| FileData.DataUrlRoundTrip | src/App.tsx:29-31 | `data:<type>;base64,<payload>` comes apart into exactly that type and payload |
| FileData.NoColonNoMimeType | src/App.tsx:30 | a URL with no colon before its first semicolon or comma gives no media type |

## Left out

- The React UI, the rest of `src/App.tsx`, the splash screens, the connection modal and the icons are rendering and React state. The cancellation registry and the handling of inbound screenshot frames live in that UI code, which is not part of this model.
- `src/index.tsx` holds DOM mounting and service-worker registration. It is not part of this model.
- The Gemini SDK (`GoogleGenerativeAI`, `chats.create`, `sendMessageStream`, `generateContent`) is foreign code. Its results are inputs: `created`, `Stream` and `Fetch`.
- The system instruction and the news prompt are constant texts with no behaviour.
- The session factory (`ai.chats.create`, geminiService.ts:68) is assumed not to throw. If it threw, the error would land in the send's `catch` and `chat` would stay unset.
- The import-time throw when no API key is configured happens before any service function exists. It is not modelled.
- CheckCooldown: reads the clock once. The source reads `Date.now()` twice, for the comparison and for the minutes, and the two readings could differ by a few milliseconds.
- Numbers are unbounded integers. Floating point, `parseInt` beyond 2^53, exponent notation and fractional JSON numbers are not modelled.
- JSON text is abstract. `JSON.parse` and `JSON.stringify` are a `JsonCodec` parameter. Only the round-trip lemmas assume the codec is well behaved. `ReferenceErrorReport`, `SendAsWrittenAlwaysFails` and `NewsAsWrittenAlwaysFails` also assume the codec rejects the text `<name> is not defined`, as `JSON.parse` does.
- Callbacks are assumed not to throw. In the source, an `onMessage` that throws while handling a parsed frame is called a second time with the raw data. A throwing `onChunk` would also land in the send's error handler.
- Thrown values are either `Error` objects or other values with a string form. Throwing `null` or `undefined` would make `error.toString()` throw inside the handler. That path is not modelled.
- GetGameNews: the fetched text is always a string. The SDK's `response.text` may be `undefined`, and the code would cache and deliver that. This is not modelled.
- ConsumeStream: every stream fragment is a string. The loop passes `chunk.text` to `onChunk` (geminiService.ts:226, 251), and the SDK's `text` getter may give `undefined` for a fragment without text. This is not modelled.
- Async interleaving between concurrent calls is not modelled. Each operation runs to completion.
- `console.log` and `console.error` are not modelled, and neither are storage writes that fail (quota or private mode).
- Socket ready states change only through `connect` (connecting) and the open event (open). A socket that the browser is still closing counts as not live. Its handlers still write the shared module state, which the model reflects by giving events no socket identity.

## Findings

The file `src/services/geminiService.ts` is an ES module, so its code is strict: reading or assigning a name that is not declared throws a ReferenceError. The message `chat is not defined` is the wording of V8 and SpiderMonkey; JavaScriptCore says `Can't find variable: chat`. Only the message text would differ.

Once `chat` is declared, the first call of `getChatSession` still reads the undeclared `ai` at line 68, because `chat` starts out null; `SendWithOnlyChatDeclaredFailsOnAi` shows the report that follows. The corrected members assume both names are declared.

| source | as written | input that shows it | evidently intended | confidence | as-written member | corrected member |
|---|---|---|---|---|---|---|
| src/services/geminiService.ts:17 | `chat` is never declared (its declaration is commented out), so `getChatSession` throws a ReferenceError at `if (!chat)`, which the send's `catch` reports | any call of `sendMessage` or `sendMessageWithImage` | a module-level `chat` starting at `null`, created on first use and reused until `resetChat` | high, not executed | GeminiService.SendAsWrittenAlwaysFails | GeminiService.GeminiClient.SendMessage |
| src/services/geminiService.ts:84 | `chat = null` assigns the undeclared `chat`, so `resetChat` throws to its caller before removing the cooldown or the cached news | any call of `resetChat` | forget the session and remove both keys | high, not executed | GeminiService.ResetChatAsWrittenThrows | GeminiService.GeminiClient.ResetChat |
| src/services/geminiService.ts:80 | `isChatActive` reads the undeclared `chat` and throws to its caller | any call of `isChatActive` | `true` exactly when a session is held | high, not executed | GeminiService.IsChatActiveAsWrittenThrows | GeminiService.GeminiClient.IsChatActive |
| src/services/geminiService.ts:180 | `ai` is never declared (only `genAI` is, at line 12), so the news request throws a ReferenceError | any `getGameNews` call with no active cooldown and no same-day cache entry | a client whose `generateContent` answers and whose answer is cached for the day | high, not executed | GeminiService.NewsAsWrittenAlwaysFails | GeminiService.NewsCacheServesSameDay |

=== FILE: file_data.dfy ===
/**
 * Taking apart the data URL that `FileReader.readAsDataURL` produces for an
 * attached screenshot (`fileToBase64` in src/App.tsx): the Base64 payload is
 * what follows the first comma, the MIME type what lies between the first colon
 * and the next colon or semicolon of the header. JavaScript yields `undefined` for a
 * missing piece; here that is `None`.
 */
module FileData {
  import opened Wrappers
  import opened JsStrings

  datatype FileParts = FileParts(base64: Option<string>, mimeType: Option<string>, dataUrl: string)

  /** `parts[i]`, which is `undefined` past the end. */
  function Element(parts: seq<string>, i: nat): (r: Option<string>)
    ensures r.Some? <==> i < |parts|
    ensures r.Some? ==> r.value == parts[i]
  {
    if i < |parts| then Some(parts[i]) else None
  }

  /** `[meta, data] = dataUrl.split(',')` and `meta.split(';')[0].split(':')[1]`. */
  function ParseDataUrl(dataUrl: string): (r: FileParts)
    ensures r.dataUrl == dataUrl
    ensures r.base64.None? <==> ',' !in dataUrl
    ensures r.base64.Some? ==> ',' !in r.base64.value
    ensures r.mimeType.Some? ==> ',' !in r.mimeType.value && ';' !in r.mimeType.value && ':' !in r.mimeType.value
  {
    var pieces := Split(dataUrl, ',');
    var meta := pieces[0];
    var typePart := Split(meta, ';')[0];
    var mimeType := Element(Split(typePart, ':'), 1);
    SplitPieceInText(meta, ';', 0);
    if mimeType.Some? then
      SplitPieceInText(typePart, ':', 1);
      FileParts(Element(pieces, 1), mimeType, dataUrl)
    else
      FileParts(Element(pieces, 1), mimeType, dataUrl)
  }

  /** The payload is the text between the first comma and the next one (or the end). */
  lemma Base64AfterFirstComma(header: string, payload: string, rest: string)
    requires ',' !in header && ',' !in payload
    requires rest == [] || rest[0] == ','
    ensures ParseDataUrl(header + [','] + payload + rest).base64 == Some(payload)
  {
    assert header + [','] + payload + rest == header + [','] + (payload + rest);
    SplitAtFirst(header, payload + rest, ',');
    SplitHead(payload, rest, ',');
  }

  /** The first piece of `t` split at `sep` is empty when `t` is empty or starts with `sep`, and otherwise starts with the first character of `t`. */
  lemma FirstPieceStart(t: string, sep: char)
    ensures t == [] || t[0] == sep ==> Split(t, sep)[0] == []
    ensures t != [] && t[0] != sep ==> |Split(t, sep)[0]| > 0 && Split(t, sep)[0][0] == t[0]
  {
    if t != [] && t[0] == sep {
      SplitHead([], t, sep);
      assert [] + t == t;
    } else if t != [] {
      SplitFirstPrefix([t[0]], t[1..], sep);
      assert [t[0]] + t[1..] == t;
    }
  }

  /**
   * The MIME type is the text between the first colon and the next colon or
   * semicolon of the header, `<scheme>:<type>` followed by nothing, by `;` and
   * parameters, or by another `:`.
   */
  lemma MimeTypeOfHeader(scheme: string, mime: string, tail: string, after: string)
    requires ':' !in scheme && ';' !in scheme && ',' !in scheme
    requires ':' !in mime && ';' !in mime && ',' !in mime
    requires ',' !in tail && (tail == [] || tail[0] == ':' || tail[0] == ';')
    requires after == [] || after[0] == ','
    ensures ParseDataUrl(scheme + [':'] + mime + tail + after).mimeType == Some(mime)
  {
    var typeStart := scheme + [':'] + mime;
    var header := typeStart + tail;
    assert ',' !in header;
    SplitHead(header, after, ',');
    SplitFirstPrefix(typeStart, tail, ';');
    var rest := Split(tail, ';')[0];
    FirstPieceStart(tail, ';');
    assert Split(header, ';')[0] == scheme + [':'] + (mime + rest);
    SplitAtFirst(scheme, mime + rest, ':');
    SplitHead(mime, rest, ':');
  }

  /**
   * The URL `readAsDataURL` writes for a Base64 file, `data:<type>;base64,<payload>`,
   * comes apart into exactly that type and payload.
   */
  lemma DataUrlRoundTrip(mime: string, payload: string)
    requires ':' !in mime && ';' !in mime && ',' !in mime
    requires ',' !in payload
    ensures ParseDataUrl("data:" + mime + ";base64," + payload)
         == FileParts(Some(payload), Some(mime), "data:" + mime + ";base64," + payload)
  {
    var scheme, tail := "data", ";base64";
    var header := scheme + [':'] + mime + tail;
    var url := "data:" + mime + ";base64," + payload;
    assert url == header + [','] + payload;
    assert ',' !in header;
    Base64AfterFirstComma(header, payload, []);
    assert header + [','] + payload + [] == url;
    assert header + ([','] + payload) == url;
    MimeTypeOfHeader(scheme, mime, tail, [','] + payload);
  }

  /**
   * A URL with no colon before its first semicolon or comma (`head` is the text
   * before that separator) names no MIME type.
   */
  lemma NoColonNoMimeType(head: string, rest: string)
    requires ':' !in head && ';' !in head && ',' !in head
    requires rest == [] || rest[0] == ';' || rest[0] == ','
    ensures ParseDataUrl(head + rest).mimeType == None
  {
    SplitFirstPrefix(head, rest, ',');
    var metaRest := Split(rest, ',')[0];
    FirstPieceStart(rest, ',');
    SplitHead(head, metaRest, ';');
  }
}

=== FILE: gemini_service.dfy ===
/**
 * The chat service (src/services/geminiService.ts): the lazily created chat
 * session, the quota cooldown kept in persisted storage, the same-day news
 * cache, the error classifier and the loop that hands streamed text to the
 * caller. The clock (`now`), the calendar date (`today`), what the SDK returns
 * and JSON parsing are parameters; the callbacks the source invokes are
 * returned, in order, as a sequence of `Call`s.
 */
module GeminiService {
  import opened Wrappers
  import opened JsStrings
  import opened JsNumbers
  import opened JsValues

  const CooldownKey: string := "geminiCooldownEnd"
  const NewsCacheKey: string := "otakonNewsCache"
  /** One hour, in milliseconds. */
  const CooldownDuration: int := 60 * 60 * 1000
  const MillisPerMinute: int := 1000 * 60

  const QuotaSignal: string := "RESOURCE_EXHAUSTED"
  const QuotaStatus: int := 429
  const QuotaExceeded: string := "QUOTA_EXCEEDED"
  const InvalidKeySignal: string := "API key not valid"
  const InvalidKeyMessage: string := "Error: " + "The provided API Key is not valid. Please check your configuration."
  const UnknownErrorMessage: string := "An unknown error occurred while contacting the AI."

  /** The browser's persisted key-value storage. */
  type Store = map<string, string>

  /** One invocation of a caller-supplied callback. */
  datatype Call = OnChunk(chunk: string) | OnUpdate(news: Json) | OnError(message: string)

  /** An opaque chat session, as the SDK's session factory returns it. */
  datatype Session = Session(id: nat)

  /** What is sent on a session: a text, or an image with its media type. */
  datatype Turn = TextTurn(message: string) | ImageTurn(data: string, mimeType: string)
  datatype Request = Request(session: Session, turn: Turn)

  /**
   * What `sendMessageStream` gives: a rejection, or a stream of text fragments
   * whose iteration may end by throwing `failure` instead of completing.
   */
  datatype Stream = Rejected(error: Thrown) | Opened(chunks: seq<string>, failure: Option<Thrown>)

  /**
   * What the news request (`generateContent`) gives: its text, or the error it
   * throws together with the clock reading `handleError` then takes, which is
   * later than the one the cooldown check took before the request.
   */
  datatype Fetch = Answered(text: string) | Failed(error: Thrown, at: int)

  /** Storage after a service call, with the callbacks it made. */
  datatype Effect = Effect(store: Store, calls: seq<Call>)

  // ---------------------------------------------------------------- cooldown

  /**
   * The cooldown end as `checkCooldown` reads it: the stored text only when it
   * is there and non-empty (`""` is falsy), through `parseInt`.
   */
  function StoredCooldownEnd(store: Store): Option<int>
  {
    if CooldownKey in store && store[CooldownKey] != "" then ParseInt(store[CooldownKey]) else None
  }

  /** A cooldown is active: a readable end lies in the future. */
  predicate OnCooldown(store: Store, now: int)
  {
    StoredCooldownEnd(store).Some? && now < StoredCooldownEnd(store).value
  }

  /** `Math.ceil((end - now) / 60000)`, the whole minutes left. */
  function MinutesRemaining(end: int, now: int): (minutes: int)
    requires now < end
    ensures minutes >= 1
    ensures (minutes - 1) * MillisPerMinute < end - now <= minutes * MillisPerMinute
  {
    (end - now + MillisPerMinute - 1) / MillisPerMinute
  }

  function RestingMessage(minutes: int): string
  {
    "The AI is currently resting due to high traffic. Please try again in about "
      + IntToString(minutes) + " minute(s)."
  }

  datatype CooldownCheck = CooldownCheck(resting: bool, calls: seq<Call>)

  /** `checkCooldown`: reject, with one message, while a stored end lies in the future. */
  function CheckCooldown(store: Store, now: int): (r: CooldownCheck)
    ensures r.resting <==> OnCooldown(store, now)
    ensures CooldownKey !in store || ParseInt(store[CooldownKey]).None? ==> !r.resting
    ensures r.resting ==>
      r.calls == [OnError(RestingMessage(MinutesRemaining(StoredCooldownEnd(store).value, now)))]
    ensures !r.resting ==> r.calls == []
  {
    match StoredCooldownEnd(store)
    case Some(end) =>
      if now < end then CooldownCheck(true, [OnError(RestingMessage(MinutesRemaining(end, now)))])
      else CooldownCheck(false, [])
    case None => CooldownCheck(false, [])
  }

  /** `handleSuccess`: drop the stored cooldown end when there is one. */
  function ClearCooldown(store: Store): (r: Store)
    ensures forall now :: !OnCooldown(r, now)
    ensures r - {CooldownKey} == store - {CooldownKey}
    ensures CooldownKey in r ==> r[CooldownKey] == "" && r == store
    ensures CooldownKey in store && store[CooldownKey] == "" ==> r == store
  {
    if CooldownKey in store && store[CooldownKey] != "" then store - {CooldownKey} else store
  }

  /** Clearing twice is clearing once. */
  lemma ClearCooldownIdempotent(store: Store)
    ensures ClearCooldown(ClearCooldown(store)) == ClearCooldown(store)
  {
  }

  // ------------------------------------------------------------------ errors

  /** The provider reported exhausted quota. */
  predicate IsQuotaError(e: Thrown)
  {
    Contains(e.text, QuotaSignal) || e.httpStatus == Some(QuotaStatus)
  }

  /** `parsedError.error.message`, when both reads give truthy values. */
  function ProviderMessage(parsed: Json): Option<Json>
  {
    match Property(parsed, "error")
    case Some(inner) =>
      if Truthy(inner) then
        match Property(inner, "message")
        case Some(message) => if Truthy(message) then Some(message) else None
        case None => None
      else None
    case None => None
  }

  /** "Error: " in front of a detail; never the quota marker. */
  function ErrorText(detail: string): (message: string)
    ensures |message| >= 7 && message[..7] == "Error: " && message != QuotaExceeded
    ensures message[7..] == detail
  {
    var message := "Error: " + detail;
    assert message[0] != QuotaExceeded[0];
    message
  }

  /**
   * The message `handleError` reports for an error that is not about quota.
   * JSON that parses to `null` makes the property read throw, which lands in
   * the same `catch` as text that is not JSON at all.
   */
  function ErrorMessage(e: Thrown, codec: JsonCodec): (message: string)
    ensures message != QuotaExceeded
    ensures message == UnknownErrorMessage || (|message| >= 7 && message[..7] == "Error: ")
    ensures e.OtherValue? ==> message == UnknownErrorMessage
    ensures e.ErrorObject? && Contains(e.message, InvalidKeySignal) ==> message == InvalidKeyMessage
    ensures e.ErrorObject? && !Contains(e.message, InvalidKeySignal) ==>
      match codec.parse(e.message)
      case None => message == ErrorText(e.message)
      case Some(JNull) => message == ErrorText(e.message)
      case Some(parsed) =>
        message == (if ProviderMessage(parsed).Some?
                    then ErrorText(TemplateString(ProviderMessage(parsed).value))
                    else UnknownErrorMessage)
  {
    match e
    case OtherValue(_, _) => UnknownErrorMessage
    case ErrorObject(text, _, _) =>
      if Contains(text, InvalidKeySignal) then
        ErrorText("The provided API Key is not valid. Please check your configuration.")
      else
        match codec.parse(text)
        case None => ErrorText(text)
        case Some(parsed) =>
          if parsed.JNull? then ErrorText(text)
          else
            match ProviderMessage(parsed)
            case Some(inner) => ErrorText(TemplateString(inner))
            case None => UnknownErrorMessage
  }

  /** `handleError`: exactly one report; a quota error also starts a one-hour cooldown. */
  function ErrorOutcome(store: Store, e: Thrown, now: int, codec: JsonCodec): (r: Effect)
    ensures |r.calls| == 1 && r.calls[0].OnError?
    ensures IsQuotaError(e) ==>
      r.calls[0].message == QuotaExceeded && r.store == store[CooldownKey := IntToString(now + CooldownDuration)]
    ensures !IsQuotaError(e) ==> r.calls[0].message == ErrorMessage(e, codec) && r.store == store
    ensures r.store - {CooldownKey} == store - {CooldownKey}
  {
    if IsQuotaError(e) then
      Effect(store[CooldownKey := IntToString(now + CooldownDuration)], [OnError(QuotaExceeded)])
    else
      Effect(store, [OnError(ErrorMessage(e, codec))])
  }

  /**
   * After a quota error the cooldown is active for exactly the next hour, and
   * `checkCooldown` then reports the whole minutes left.
   */
  lemma QuotaErrorStartsCooldown(store: Store, e: Thrown, now: int, later: int, codec: JsonCodec)
    requires IsQuotaError(e)
    ensures var after := ErrorOutcome(store, e, now, codec).store;
      && StoredCooldownEnd(after) == Some(now + CooldownDuration)
      && (OnCooldown(after, later) <==> later < now + CooldownDuration)
      && (later < now + CooldownDuration ==>
            CheckCooldown(after, later).calls
              == [OnError(RestingMessage(MinutesRemaining(now + CooldownDuration, later)))])
  {
    var after := ErrorOutcome(store, e, now, codec).store;
    ParseIntOfToString(now + CooldownDuration);
    assert after[CooldownKey] == IntToString(now + CooldownDuration);
  }

  /** Any other error leaves storage, and so the cooldown, as it was. */
  lemma OtherErrorKeepsStore(store: Store, e: Thrown, now: int, later: int, codec: JsonCodec)
    requires !IsQuotaError(e)
    ensures ErrorOutcome(store, e, now, codec).store == store
    ensures ErrorOutcome(store, e, now, codec).calls != [OnError(QuotaExceeded)]
  {
  }

  // -------------------------------------------------------------- news cache

  /** The record cached under `NewsCacheKey`: `{date, news}`. */
  function NewsRecord(date: string, news: string): Json
  {
    JObject(map["date" := JString(date), "news" := JString(news)])
  }

  /** How `getGameNews` reads its cache entry. */
  datatype CacheLookup = Hit(news: Json) | Miss | Corrupt

  /**
   * A non-empty entry that parses to an object whose `date` is `today` and
   * whose `news` is truthy is a hit; an entry that does not parse, or parses
   * to `null` (destructuring `null` throws), is corrupt; anything else misses.
   */
  function LookupNews(store: Store, today: string, codec: JsonCodec): CacheLookup
  {
    if NewsCacheKey !in store || store[NewsCacheKey] == "" then Miss
    else
      match codec.parse(store[NewsCacheKey])
      case None => Corrupt
      case Some(parsed) =>
        if parsed.JNull? then Corrupt
        else
          var date := Property(parsed, "date");
          var news := Property(parsed, "news");
          if date == Some(JString(today)) && news.Some? && Truthy(news.value) then Hit(news.value)
          else Miss
  }

  /** Storage, callbacks, and whether the news request was made. */
  datatype NewsOutcome = NewsOutcome(store: Store, calls: seq<Call>, fetched: bool)

  /** `getGameNews`: cooldown check, same-day cache, then the request. */
  function NewsEffect(store: Store, now: int, today: string, codec: JsonCodec, fetch: Fetch): (r: NewsOutcome)
    ensures |r.calls| == 1
    ensures r.fetched <==> !OnCooldown(store, now) && !LookupNews(store, today, codec).Hit?
    ensures OnCooldown(store, now) ==> r.store == store && r.calls == CheckCooldown(store, now).calls
    ensures !OnCooldown(store, now) && LookupNews(store, today, codec).Hit? ==>
      r.store == store && r.calls == [OnUpdate(LookupNews(store, today, codec).news)]
    ensures r.fetched && fetch.Answered? ==>
      && NewsCacheKey in r.store && r.store[NewsCacheKey] == codec.stringify(NewsRecord(today, fetch.text))
      && r.store - {NewsCacheKey} == store - {NewsCacheKey}
      && r.calls == [OnUpdate(JString(fetch.text))]
    ensures r.fetched && fetch.Failed? ==>
      var kept := if LookupNews(store, today, codec).Corrupt? then store - {NewsCacheKey} else store;
      Effect(r.store, r.calls) == ErrorOutcome(kept, fetch.error, fetch.at, codec)
  {
    var check := CheckCooldown(store, now);
    if check.resting then NewsOutcome(store, check.calls, false)
    else
      match LookupNews(store, today, codec)
      case Hit(news) => NewsOutcome(store, [OnUpdate(news)], false)
      case lookup =>
        var kept := if lookup.Corrupt? then store - {NewsCacheKey} else store;
        match fetch
        case Answered(text) =>
          NewsOutcome(kept[NewsCacheKey := codec.stringify(NewsRecord(today, text))], [OnUpdate(JString(text))], true)
        case Failed(e, at) =>
          var failed := ErrorOutcome(kept, e, at, codec);
          NewsOutcome(failed.store, failed.calls, true)
  }

  /**
   * Cached news is served the same day: after a successful request, a later
   * call on the same date delivers the same text without a request.
   */
  lemma NewsCacheServesSameDay(store: Store, now: int, later: int, today: string, codec: JsonCodec,
                               text: string, next: Fetch)
    requires WellBehaved(codec)
    requires text != "" && now <= later
    requires !OnCooldown(store, now) && !LookupNews(store, today, codec).Hit?
    ensures var first := NewsEffect(store, now, today, codec, Answered(text));
      NewsEffect(first.store, later, today, codec, next)
        == NewsOutcome(first.store, [OnUpdate(JString(text))], false)
  {
    var first := NewsEffect(store, now, today, codec, Answered(text));
    var entry := codec.stringify(NewsRecord(today, text));
    assert codec.parse(entry) == Some(NewsRecord(today, text));
    assert entry != "";
    assert StoredCooldownEnd(first.store) == StoredCooldownEnd(store);
    assert LookupNews(first.store, today, codec) == Hit(JString(text));
  }

  /**
   * Once the date has changed the entry is no longer served: the news is
   * requested again, although the stored entry itself was left in place.
   */
  lemma NewsCacheExpiresNextDay(store: Store, now: int, today: string, tomorrow: string,
                                codec: JsonCodec, text: string, next: Fetch)
    requires WellBehaved(codec)
    requires tomorrow != today
    requires NewsCacheKey in store && store[NewsCacheKey] == codec.stringify(NewsRecord(today, text))
    requires !OnCooldown(store, now)
    ensures LookupNews(store, tomorrow, codec) == Miss
    ensures NewsEffect(store, now, tomorrow, codec, next).fetched
  {
    assert codec.parse(store[NewsCacheKey]) == Some(NewsRecord(today, text));
    assert store[NewsCacheKey] != "";
  }

  /** A corrupt entry is removed before the request, whatever the request gives. */
  lemma CorruptNewsEntryDropped(store: Store, now: int, today: string, codec: JsonCodec, e: Thrown, at: int)
    requires !OnCooldown(store, now) && LookupNews(store, today, codec).Corrupt?
    ensures NewsCacheKey !in NewsEffect(store, now, today, codec, Failed(e, at)).store
    ensures NewsEffect(store, now, today, codec, Failed(e, at)).fetched
  {
    var kept := store - {NewsCacheKey};
    assert NewsCacheKey !in ErrorOutcome(kept, e, at, codec).store;
  }

  // ----------------------------------------------------------------- sending

  /** One `onChunk` call per fragment, in order. */
  function ChunkCalls(chunks: seq<string>): (calls: seq<Call>)
    ensures |calls| == |chunks|
    ensures forall i | 0 <= i < |chunks| :: calls[i] == OnChunk(chunks[i])
  {
    seq(|chunks|, i requires 0 <= i < |chunks| => OnChunk(chunks[i]))
  }

  /**
   * The `for await` loop of both sends: before each fragment it reads the
   * abort signal, which reads aborted from the check at index `abortAt` on.
   */
  method ConsumeStream(chunks: seq<string>, abortAt: nat) returns (calls: seq<Call>, aborted: bool)
    ensures aborted <==> abortAt < |chunks|
    ensures calls == ChunkCalls(chunks[..if aborted then abortAt else |chunks|])
    ensures forall i | 0 <= i < |calls| :: i < abortAt && calls[i] == OnChunk(chunks[i])
  {
    calls, aborted := [], false;
    var i := 0;
    while i < |chunks|
      invariant i <= |chunks| && i <= abortAt
      invariant calls == ChunkCalls(chunks[..i])
    {
      if abortAt <= i {
        aborted := true;
        break;
      }
      calls := calls + [OnChunk(chunks[i])];
      i := i + 1;
    }
  }

  /**
   * What a send does once it holds the session: a rejected request is handled
   * as an error; an opened stream first clears the cooldown, then delivers
   * fragments until the abort is seen, and an error the stream raises at its
   * end is handled only when the loop was not aborted.
   */
  function SendEffect(store: Store, stream: Stream, abortAt: nat, now: int, codec: JsonCodec): (r: Effect)
    ensures stream.Rejected? ==> r == ErrorOutcome(store, stream.error, now, codec)
    ensures stream.Opened? ==>
      var n := if abortAt < |stream.chunks| then abortAt else |stream.chunks|;
      && |r.calls| >= n
      && r.calls[..n] == ChunkCalls(stream.chunks[..n])
      && (r.calls[n..] == [] || (abortAt >= |stream.chunks| && stream.failure.Some? && |r.calls[n..]| == 1 && r.calls[n].OnError?))
      && (stream.failure.None? || abortAt < |stream.chunks| ==> r.store == ClearCooldown(store))
    ensures stream.Opened? && abortAt >= |stream.chunks| && stream.failure.Some? ==>
      var failed := ErrorOutcome(ClearCooldown(store), stream.failure.value, now, codec);
      r == Effect(failed.store, ChunkCalls(stream.chunks) + failed.calls)
  {
    match stream
    case Rejected(e) => ErrorOutcome(store, e, now, codec)
    case Opened(chunks, failure) =>
      var cleared := ClearCooldown(store);
      if abortAt < |chunks| then Effect(cleared, ChunkCalls(chunks[..abortAt]))
      else if failure.None? then Effect(cleared, ChunkCalls(chunks))
      else
        var failed := ErrorOutcome(cleared, failure.value, now, codec);
        assert chunks[..|chunks|] == chunks;
        Effect(failed.store, ChunkCalls(chunks) + failed.calls)
  }

  /**
   * No fragment is delivered after the abort is seen, none is skipped or
   * reordered, and an aborted send reports no error.
   */
  lemma AbortStopsDelivery(store: Store, chunks: seq<string>, failure: Option<Thrown>,
                           abortAt: nat, now: int, codec: JsonCodec)
    requires abortAt < |chunks|
    ensures SendEffect(store, Opened(chunks, failure), abortAt, now, codec)
      == Effect(ClearCooldown(store), ChunkCalls(chunks[..abortAt]))
  {
  }

  /**
   * A stream that fails after its last fragment, without an abort, is
   * delivered whole and then reported once; a quota failure starts the
   * cooldown again, for exactly the next hour, and any other failure leaves it
   * cleared.
   */
  lemma StreamFailureReportedLast(store: Store, chunks: seq<string>, e: Thrown, abortAt: nat, now: int,
                                  later: int, codec: JsonCodec)
    requires abortAt >= |chunks|
    ensures var r := SendEffect(store, Opened(chunks, Some(e)), abortAt, now, codec);
      && r.calls == ChunkCalls(chunks) + [OnError(if IsQuotaError(e) then QuotaExceeded else ErrorMessage(e, codec))]
      && (OnCooldown(r.store, later) <==> IsQuotaError(e) && later < now + CooldownDuration)
  {
    var cleared := ClearCooldown(store);
    if IsQuotaError(e) {
      QuotaErrorStartsCooldown(cleared, e, now, later, codec);
    } else {
      OtherErrorKeepsStore(cleared, e, now, later, codec);
      assert !OnCooldown(cleared, later);
    }
  }

  /** A stream that completes without abort is delivered whole and leaves no cooldown behind. */
  lemma CompletedStreamDeliversAll(store: Store, chunks: seq<string>, abortAt: nat, now: int,
                                   later: int, codec: JsonCodec)
    requires abortAt >= |chunks|
    ensures SendEffect(store, Opened(chunks, None), abortAt, now, codec).calls == ChunkCalls(chunks)
    ensures !OnCooldown(SendEffect(store, Opened(chunks, None), abortAt, now, codec).store, later)
  {
    assert chunks[..|chunks|] == chunks;
  }

  // ---------------------------------------------------- the service, as held

  /**
   * The module-level state of the service: the chat session (`chat`) and the
   * browser storage it reads and writes.
   */
  class GeminiClient {
    var chat: Option<Session>
    var store: Store

    constructor (persisted: Store)
      ensures chat == None && store == persisted
    {
      chat := None;
      store := persisted;
    }

    /** `isChatActive`. */
    function IsChatActive(): (active: bool)
      reads this
      ensures active <==> chat != None
    {
      chat.Some?
    }

    /** `getChatSession`: create the session on first use (`created` is what the factory returns), then reuse it. */
    method GetChatSession(created: Session) returns (session: Session)
      modifies this`chat
      ensures old(chat).Some? ==> session == old(chat).value
      ensures old(chat).None? ==> session == created
      ensures chat == Some(session) && IsChatActive()
    {
      if chat.None? {
        chat := Some(created);
      }
      session := chat.value;
    }

    /** `resetChat`: forget the session, the cooldown and the cached news. */
    method ResetChat()
      modifies this
      ensures chat == None && !IsChatActive()
      ensures store == old(store) - {CooldownKey, NewsCacheKey}
      ensures forall now :: !OnCooldown(store, now)
      ensures forall today, codec :: LookupNews(store, today, codec) == Miss
    {
      chat := None;
      store := store - {CooldownKey};
      store := store - {NewsCacheKey};
    }

    /** `handleSuccess`. */
    method HandleSuccess()
      modifies this`store
      ensures store == ClearCooldown(old(store))
    {
      if CooldownKey in store && store[CooldownKey] != "" {
        store := store - {CooldownKey};
      }
    }

    /** `handleError`. */
    method HandleError(e: Thrown, now: int, codec: JsonCodec) returns (calls: seq<Call>)
      modifies this`store
      ensures Effect(store, calls) == ErrorOutcome(old(store), e, now, codec)
    {
      if IsQuotaError(e) {
        store := store[CooldownKey := IntToString(now + CooldownDuration)];
        calls := [OnError(QuotaExceeded)];
        return;
      }
      calls := [OnError(ErrorMessage(e, codec))];
    }

    /** `getGameNews`; `fetched` tells whether the news request was made. */
    method GetGameNews(now: int, today: string, codec: JsonCodec, fetch: Fetch)
      returns (fetched: bool, calls: seq<Call>)
      modifies this`store
      ensures NewsOutcome(store, calls, fetched) == NewsEffect(old(store), now, today, codec, fetch)
    {
      var check := CheckCooldown(store, now);
      if check.resting {
        return false, check.calls;
      }
      if NewsCacheKey in store && store[NewsCacheKey] != "" {
        match codec.parse(store[NewsCacheKey]) {
          case None =>
            store := store - {NewsCacheKey};
          case Some(parsed) =>
            if parsed.JNull? {
              store := store - {NewsCacheKey};
            } else {
              var date := Property(parsed, "date");
              var news := Property(parsed, "news");
              if date == Some(JString(today)) && news.Some? && Truthy(news.value) {
                return false, [OnUpdate(news.value)];
              }
            }
        }
      }
      fetched := true;
      match fetch {
        case Answered(text) =>
          store := store[NewsCacheKey := codec.stringify(NewsRecord(today, text))];
          calls := [OnUpdate(JString(text))];
        case Failed(e, at) =>
          calls := HandleError(e, at, codec);
      }
    }

    /** The part both sends share, once the request is issued. */
    method ReceiveStream(stream: Stream, abortAt: nat, now: int, codec: JsonCodec) returns (calls: seq<Call>)
      modifies this`store
      ensures Effect(store, calls) == SendEffect(old(store), stream, abortAt, now, codec)
    {
      match stream {
        case Rejected(e) =>
          calls := HandleError(e, now, codec);
        case Opened(chunks, failure) =>
          HandleSuccess();
          var aborted;
          calls, aborted := ConsumeStream(chunks, abortAt);
          if !aborted && failure.Some? {
            var failed := HandleError(failure.value, now, codec);
            calls := calls + failed;
          }
      }
    }

    /** `sendMessage`. It does not consult the cooldown. */
    method SendMessage(message: string, created: Session, stream: Stream, abortAt: nat, now: int,
                       codec: JsonCodec)
      returns (request: Request, calls: seq<Call>)
      modifies this
      ensures request == Request(if old(chat).Some? then old(chat).value else created, TextTurn(message))
      ensures chat == Some(request.session)
      ensures Effect(store, calls) == SendEffect(old(store), stream, abortAt, now, codec)
    {
      var session := GetChatSession(created);
      request := Request(session, TextTurn(message));
      calls := ReceiveStream(stream, abortAt, now, codec);
    }

    /** `sendMessageWithImage`. It does not consult the cooldown either. */
    method SendMessageWithImage(data: string, mimeType: string, created: Session, stream: Stream,
                                abortAt: nat, now: int, codec: JsonCodec)
      returns (request: Request, calls: seq<Call>)
      modifies this
      ensures request == Request(if old(chat).Some? then old(chat).value else created, ImageTurn(data, mimeType))
      ensures chat == Some(request.session)
      ensures Effect(store, calls) == SendEffect(old(store), stream, abortAt, now, codec)
    {
      var session := GetChatSession(created);
      request := Request(session, ImageTurn(data, mimeType));
      calls := ReceiveStream(stream, abortAt, now, codec);
    }
  }

  // --------------------------------------------- the session code as written

  /** The error a read of an undeclared variable raises. */
  function ReferenceError(name: string): Thrown
  {
    ErrorObject(name + " is not defined", "ReferenceError: " + name + " is not defined", None)
  }

  /**
   * The names the module declares: its imports, constants and functions. The
   * variable `chat` is not among them; its declaration is commented out.
   */
  const ModuleNames: set<string> :=
    {"GoogleGenerativeAI", "API_KEY", "genAI", "COOLDOWN_KEY", "NEWS_CACHE_KEY", "COOLDOWN_DURATION",
     "getSystemInstruction", "getChatSession", "isChatActive", "resetChat", "handleSuccess",
     "handleError", "checkCooldown", "getGameNews", "sendMessageWithImage", "sendMessage"}

  /**
   * A statement of the session functions, reduced to the names and storage
   * keys it touches. The file is an ES module, so its code is strict: reading
   * or assigning a name that is not declared throws a ReferenceError.
   */
  datatype Stmt = ReadName(name: string) | AssignName(name: string) | RemoveItem(key: string)

  /** Storage after some statements ran, and the error they threw, if any. */
  datatype Completion = Completion(store: Store, thrown: Option<Thrown>)

  /** The statement touches a name that is not declared. */
  predicate Undeclared(st: Stmt, declared: set<string>)
  {
    !st.RemoveItem? && st.name !in declared
  }

  /** The storage keys the statements remove. */
  function RemovedKeys(body: seq<Stmt>): set<string>
  {
    set i | 0 <= i < |body| && body[i].RemoveItem? :: body[i].key
  }

  /** Runs statements in order until one throws; nothing catches the error. */
  function RunStrict(declared: set<string>, body: seq<Stmt>, store: Store): (r: Completion)
    ensures r.thrown.None? <==> forall i | 0 <= i < |body| :: !Undeclared(body[i], declared)
    ensures r.thrown.None? ==> r.store == store - RemovedKeys(body)
    ensures r.thrown.Some? ==> r.store - RemovedKeys(body) == store - RemovedKeys(body)
    decreases |body|
  {
    if body == [] then Completion(store, None)
    else if Undeclared(body[0], declared) then Completion(store, Some(ReferenceError(body[0].name)))
    else
      var next := if body[0].RemoveItem? then store - {body[0].key} else store;
      var r := RunStrict(declared, body[1..], next);
      assert forall i | 1 <= i < |body| :: body[i] == body[1..][i - 1];
      assert RemovedKeys(body) == RemovedKeys(body[1..]) + (if body[0].RemoveItem? then {body[0].key} else {});
      assert next - RemovedKeys(body) == store - RemovedKeys(body);
      assert r.store - RemovedKeys(body) == (r.store - RemovedKeys(body[1..])) - RemovedKeys(body);
      r
  }

  /**
   * The first statement that touches an undeclared name throws its
   * ReferenceError; the removals before it have happened, none after it has.
   */
  lemma {:induction false} RunStrictStopsAtFirstUndeclared(declared: set<string>, body: seq<Stmt>, k: nat, store: Store)
    requires k < |body| && Undeclared(body[k], declared)
    requires forall i | 0 <= i < k :: !Undeclared(body[i], declared)
    ensures RunStrict(declared, body, store)
         == Completion(store - RemovedKeys(body[..k]), Some(ReferenceError(body[k].name)))
    decreases k
  {
    if k == 0 {
      assert RemovedKeys(body[..0]) == {};
    } else {
      var next := if body[0].RemoveItem? then store - {body[0].key} else store;
      var tail := body[1..];
      assert forall i | 0 <= i < k - 1 :: tail[i] == body[i + 1];
      RunStrictStopsAtFirstUndeclared(declared, tail, k - 1, next);
      assert tail[..k - 1] == body[1..k];
      assert forall i | 1 <= i < k :: body[..k][i] == body[1..k][i - 1];
      assert RemovedKeys(body[..k]) == RemovedKeys(body[1..k]) + (if body[0].RemoveItem? then {body[0].key} else {});
    }
  }

  /** The body of `resetChat`: clear `chat`, then remove the cooldown and the cached news. */
  const ResetChatBody: seq<Stmt> := [AssignName("chat"), RemoveItem(CooldownKey), RemoveItem(NewsCacheKey)]

  /** The body of `isChatActive`: read `chat`. */
  const IsChatActiveBody: seq<Stmt> := [ReadName("chat")]

  /** As written, `resetChat` throws at its first line and removes nothing. */
  lemma ResetChatAsWrittenThrows(store: Store)
    ensures RunStrict(ModuleNames, ResetChatBody, store) == Completion(store, Some(ReferenceError("chat")))
  {
    assert "chat" !in ModuleNames;
    RunStrictStopsAtFirstUndeclared(ModuleNames, ResetChatBody, 0, store);
    assert RemovedKeys(ResetChatBody[..0]) == {};
  }

  /** As written, `isChatActive` throws instead of answering. */
  lemma IsChatActiveAsWrittenThrows(store: Store)
    ensures RunStrict(ModuleNames, IsChatActiveBody, store) == Completion(store, Some(ReferenceError("chat")))
  {
    assert "chat" !in ModuleNames;
    RunStrictStopsAtFirstUndeclared(ModuleNames, IsChatActiveBody, 0, store);
    assert RemovedKeys(IsChatActiveBody[..0]) == {};
  }

  /** With `chat` declared, `resetChat` runs through and removes exactly its two keys. */
  lemma ResetChatWithChatDeclared(store: Store)
    ensures RunStrict(ModuleNames + {"chat"}, ResetChatBody, store)
         == Completion(store - {CooldownKey, NewsCacheKey}, None)
  {
    var body := ResetChatBody;
    assert body[0] == AssignName("chat") && body[1] == RemoveItem(CooldownKey) && body[2] == RemoveItem(NewsCacheKey);
    assert CooldownKey in RemovedKeys(body) && NewsCacheKey in RemovedKeys(body);
    assert forall k | k in RemovedKeys(body) :: k == CooldownKey || k == NewsCacheKey;
  }

  /**
   * What the first call of `getChatSession` touches before any request: the
   * read of `chat` in `if (!chat)` and, since `chat` starts out null, the read
   * of `ai` in `ai.chats.create`.
   */
  const GetChatSessionBody: seq<Stmt> := [ReadName("chat"), ReadName("ai")]

  /**
   * The first send with the module's names `declared`: `getChatSession` runs
   * first inside the `try`, so an error it throws goes to `handleError` before
   * any request; otherwise the send proceeds as `SendEffect` describes.
   */
  function SendInScope(declared: set<string>, store: Store, stream: Stream, abortAt: nat, now: int,
                       codec: JsonCodec): (r: Effect)
    ensures "chat" !in declared ==> r == ErrorOutcome(store, ReferenceError("chat"), now, codec)
    ensures "chat" in declared && "ai" !in declared ==> r == ErrorOutcome(store, ReferenceError("ai"), now, codec)
    ensures "chat" in declared && "ai" in declared ==> r == SendEffect(store, stream, abortAt, now, codec)
  {
    var session := RunStrict(declared, GetChatSessionBody, store);
    assert GetChatSessionBody[0] == ReadName("chat") && GetChatSessionBody[1] == ReadName("ai");
    if "chat" !in declared then
      RunStrictStopsAtFirstUndeclared(declared, GetChatSessionBody, 0, store);
      assert RemovedKeys(GetChatSessionBody[..0]) == {};
      ErrorOutcome(session.store, session.thrown.value, now, codec)
    else if "ai" !in declared then
      RunStrictStopsAtFirstUndeclared(declared, GetChatSessionBody, 1, store);
      assert RemovedKeys(GetChatSessionBody[..1]) == {};
      ErrorOutcome(session.store, session.thrown.value, now, codec)
    else
      assert RemovedKeys(GetChatSessionBody) == {};
      SendEffect(session.store, stream, abortAt, now, codec)
  }

  /** A text without an underscore cannot carry the quota signal. */
  lemma NoUnderscoreNotQuota(e: Thrown)
    requires '_' !in e.text && e.httpStatus.None?
    ensures !IsQuotaError(e)
  {
    assert QuotaSignal[8] == '_';
    MissingCharNotContained(e.text, QuotaSignal, '_');
  }

  /** A message without a capital A cannot carry the invalid-key signal. */
  lemma NoCapitalANotInvalidKey(e: Thrown)
    requires e.ErrorObject? && 'A' !in e.message
    ensures !Contains(e.message, InvalidKeySignal)
  {
    assert InvalidKeySignal[0] == 'A';
    MissingCharNotContained(e.message, InvalidKeySignal, 'A');
  }

  /**
   * A ReferenceError for a name without underscores or capital A, whose
   * message is not JSON, is reported as `Error: <name> is not defined`.
   */
  lemma ReferenceErrorReport(store: Store, name: string, now: int, codec: JsonCodec)
    requires '_' !in name && 'A' !in name
    requires codec.parse(name + " is not defined") == None
    ensures ErrorOutcome(store, ReferenceError(name), now, codec)
         == Effect(store, [OnError("Error: " + name + " is not defined")])
  {
    var e := ReferenceError(name);
    var tail := " is not defined";
    assert '_' !in tail && 'A' !in tail && '_' !in "ReferenceError: ";
    assert '_' !in e.text;
    NoUnderscoreNotQuota(e);
    NoCapitalANotInvalidKey(e);
    assert ErrorMessage(e, codec) == ErrorText(e.message);
    assert ErrorText(e.message) == "Error: " + name + tail;
  }

  /**
   * The two reports spelled out. Kept apart from the lemmas that use them: in
   * their larger contexts the solver does not settle these literals cheaply.
   */
  lemma NotDefinedTexts()
    ensures "chat" + " is not defined" == "chat is not defined"
    ensures "Error: " + "chat" + " is not defined" == "Error: chat is not defined"
    ensures "ai" + " is not defined" == "ai is not defined"
    ensures "Error: " + "ai" + " is not defined" == "Error: ai is not defined"
  {
  }

  /** As written, every send ends in the same error report and never streams. */
  lemma SendAsWrittenAlwaysFails(store: Store, stream: Stream, abortAt: nat, now: int, codec: JsonCodec)
    requires codec.parse("chat is not defined") == None
    ensures SendInScope(ModuleNames, store, stream, abortAt, now, codec)
      == Effect(store, [OnError("Error: chat is not defined")])
  {
    assert "chat" !in ModuleNames;
    NotDefinedTexts();
    ReferenceErrorReport(store, "chat", now, codec);
  }

  /** Declaring `chat` alone is not enough: the first send then fails on `ai`. */
  lemma SendWithOnlyChatDeclaredFailsOnAi(store: Store, stream: Stream, abortAt: nat, now: int, codec: JsonCodec)
    requires codec.parse("ai is not defined") == None
    ensures SendInScope(ModuleNames + {"chat"}, store, stream, abortAt, now, codec)
      == Effect(store, [OnError("Error: ai is not defined")])
  {
    assert "ai" !in ModuleNames + {"chat"};
    NotDefinedTexts();
    ReferenceErrorReport(store, "ai", now, codec);
  }

  /** With both `chat` and `ai` declared, a send is exactly the intended one. */
  lemma SendWithSessionNamesDeclared(store: Store, stream: Stream, abortAt: nat, now: int, codec: JsonCodec)
    ensures SendInScope(ModuleNames + {"chat", "ai"}, store, stream, abortAt, now, codec)
         == SendEffect(store, stream, abortAt, now, codec)
  {
  }

  /**
   * The news request as written reads the undeclared `ai`, so whenever the
   * cooldown and the cache let it through, it reports this error and caches nothing.
   */
  lemma NewsAsWrittenAlwaysFails(store: Store, now: int, at: int, today: string, codec: JsonCodec)
    requires codec.parse("ai is not defined") == None
    requires !OnCooldown(store, now) && !LookupNews(store, today, codec).Hit?
    ensures var r := NewsEffect(store, now, today, codec, Failed(ReferenceError("ai"), at));
      && r.calls == [OnError("Error: ai is not defined")]
      && r.store == (if LookupNews(store, today, codec).Corrupt? then store - {NewsCacheKey} else store)
  {
    var e := ReferenceError("ai");
    var kept := if LookupNews(store, today, codec).Corrupt? then store - {NewsCacheKey} else store;
    assert NewsEffect(store, now, today, codec, Failed(e, at))
        == NewsOutcome(ErrorOutcome(kept, e, at, codec).store, ErrorOutcome(kept, e, at, codec).calls, true);
    NotDefinedTexts();
    ReferenceErrorReport(kept, "ai", at, codec);
  }
}

=== FILE: js_numbers.dfy ===
/**
 * Number to text and back, as JavaScript does it for integers:
 * `Number.prototype.toString()` and `parseInt(text, 10)`.
 * Numbers are unbounded integers here (see README, "Left out").
 */
module JsNumbers {
  import opened Wrappers

  predicate IsDigit(c: char) { '0' <= c <= '9' }

  predicate AllDigits(s: string) { forall i | 0 <= i < |s| :: IsDigit(s[i]) }

  function DigitChar(d: nat): (c: char)
    requires d < 10
    ensures IsDigit(c)
  {
    ('0' as int + d) as char
  }

  /** The value of a decimal digit (only ever applied to digits). */
  function DigitValue(c: char): nat
  {
    if IsDigit(c) then c as int - '0' as int else 0
  }

  /** `n.toString()` for `n >= 0`: its decimal digits, most significant first. */
  function NatToString(n: nat): (s: string)
    ensures |s| >= 1 && AllDigits(s)
    ensures s[0] == '0' ==> n == 0 && |s| == 1
    decreases n
  {
    if n < 10 then [DigitChar(n)] else NatToString(n / 10) + [DigitChar(n % 10)]
  }

  /** `n.toString()`: a minus sign in front of the digits of a negative number. */
  function IntToString(n: int): (s: string)
    ensures |s| >= 1 && (s[0] == '-' || IsDigit(s[0]))
    ensures s[0] == '-' <==> n < 0
    ensures n >= 0 ==> AllDigits(s) && (s[0] == '0' ==> n == 0 && |s| == 1)
    ensures n < 0 ==> |s| >= 2 && AllDigits(s[1..]) && s[1] != '0'
  {
    if n < 0 then "-" + NatToString(-n) else NatToString(n)
  }

  /** The value of a string of decimal digits (the empty string counts as 0). */
  function DigitsValue(d: string): int
    decreases |d|
  {
    if |d| == 0 then 0 else DigitsValue(d[..|d| - 1]) * 10 + DigitValue(d[|d| - 1])
  }

  /** The white space and line terminators that `parseInt` skips before the number. */
  predicate IsJsWhitespace(c: char)
  {
    || c == '\t' || c == '\n' || c == '\U{000B}' || c == '\U{000C}' || c == '\r' || c == ' '
    || c == '\U{00A0}' || c == '\U{1680}' || ('\U{2000}' <= c <= '\U{200A}')
    || c == '\U{2028}' || c == '\U{2029}' || c == '\U{202F}' || c == '\U{205F}'
    || c == '\U{3000}' || c == '\U{FEFF}'
  }

  /** The text after its leading white space. */
  function TrimStart(s: string): (t: string)
    ensures |t| <= |s| && t == s[|s| - |t|..]
    ensures t == [] || !IsJsWhitespace(t[0])
    ensures forall i | 0 <= i < |s| - |t| :: IsJsWhitespace(s[i])
    decreases |s|
  {
    if |s| > 0 && IsJsWhitespace(s[0]) then TrimStart(s[1..]) else s
  }

  /** The longest run of decimal digits at the start of `s`. */
  function DigitPrefix(s: string): (d: string)
    ensures |d| <= |s| && AllDigits(d)
    decreases |s|
  {
    if |s| > 0 && IsDigit(s[0]) then [s[0]] + DigitPrefix(s[1..]) else ""
  }

  /** The digits read are a prefix of the text, and the character after them is not a digit. */
  lemma {:induction false} DigitPrefixIsLongest(s: string)
    ensures DigitPrefix(s) <= s
    ensures |DigitPrefix(s)| < |s| ==> !IsDigit(s[|DigitPrefix(s)|])
    decreases |s|
  {
    if |s| > 0 && IsDigit(s[0]) {
      DigitPrefixIsLongest(s[1..]);
    }
  }

  /**
   * `parseInt(s, 10)`: skip white space, take one optional sign, then as many
   * digits as follow; with no digit the result is NaN, here `None`.
   */
  function ParseInt(s: string): Option<int>
  {
    ParseSigned(TrimStart(s))
  }

  function ParseSigned(t: string): Option<int>
  {
    if |t| > 0 && t[0] == '-' then Negated(ParseUnsigned(t[1..]))
    else if |t| > 0 && t[0] == '+' then ParseUnsigned(t[1..])
    else ParseUnsigned(t)
  }

  function Negated(v: Option<int>): Option<int>
  {
    if v.Some? then Some(-v.value) else None
  }

  function ParseUnsigned(body: string): Option<int>
  {
    var digits := DigitPrefix(body);
    if |digits| == 0 then None else Some(DigitsValue(digits))
  }

  lemma {:induction false} DigitPrefixOfDigits(s: string)
    requires AllDigits(s)
    ensures DigitPrefix(s) == s
    decreases |s|
  {
    if |s| > 0 {
      DigitPrefixOfDigits(s[1..]);
      assert [s[0]] + s[1..] == s;
    }
  }

  lemma {:induction false} NatToStringValue(n: nat)
    ensures DigitsValue(NatToString(n)) == n
    decreases n
  {
    var s := NatToString(n);
    if n < 10 {
      assert s[..0] == [];
    } else {
      NatToStringValue(n / 10);
      assert s[..|s| - 1] == NatToString(n / 10);
    }
  }

  lemma TrimStartOfNumber(s: string)
    requires |s| >= 1 && (s[0] == '-' || IsDigit(s[0]))
    ensures TrimStart(s) == s
  {
    assert !IsJsWhitespace(s[0]);
  }

  lemma ParseUnsignedOfDigits(d: string)
    requires |d| >= 1 && AllDigits(d)
    ensures ParseUnsigned(d) == Some(DigitsValue(d))
  {
    DigitPrefixOfDigits(d);
  }

  /** Text that starts with a digit is read without white space or sign. */
  lemma ParseIntOfDigitStart(d: string)
    requires |d| >= 1 && IsDigit(d[0])
    ensures ParseInt(d) == ParseUnsigned(d)
  {
    assert ParseInt(d) == ParseSigned(d) by { TrimStartOfNumber(d); }
  }

  lemma ParseIntOfDigits(d: string)
    requires |d| >= 1 && AllDigits(d)
    ensures ParseInt(d) == Some(DigitsValue(d))
  {
    ParseIntOfDigitStart(d);
    ParseUnsignedOfDigits(d);
  }

  /** A minus sign in front of a number negates what `parseInt` reads. */
  lemma ParseIntOfNegative(d: string)
    requires |d| >= 1 && IsDigit(d[0])
    ensures ParseInt(['-'] + d) == Negated(ParseInt(d))
  {
    var s := ['-'] + d;
    assert ParseInt(s) == ParseSigned(s) by { TrimStartOfNumber(s); }
    assert ParseSigned(s) == Negated(ParseUnsigned(d)) by { assert s[0] == '-' && s[1..] == d; }
    ParseIntOfDigitStart(d);
  }

  lemma NegatedSome(o: Option<int>, v: int)
    requires o == Some(v)
    ensures Negated(o) == Some(-v)
  {
  }

  lemma ParseIntOfNatToString(m: nat)
    ensures ParseInt(NatToString(m)) == Some(m)
  {
    ParseIntOfDigits(NatToString(m));
    NatToStringValue(m);
  }

  /** What `toString` writes, `parseInt` reads back unchanged. */
  lemma ParseIntOfToString(n: int)
    ensures ParseInt(IntToString(n)) == Some(n)
  {
    if n < 0 {
      var m: nat := -n;
      var d := NatToString(m);
      assert IntToString(n) == ['-'] + d;
      ParseIntOfNegative(d);
      ParseIntOfNatToString(m);
      NegatedSome(ParseInt(d), m);
    } else {
      ParseIntOfNatToString(n);
    }
  }
}

=== FILE: js_strings.dfy ===
/**
 * The string operations of the JavaScript standard library that the services
 * rely on: `String.prototype.split` with a one-character separator, the
 * matching join, and `String.prototype.includes`.
 */
module JsStrings {

  /** `s.split(sep)`: the pieces between the occurrences of `sep`, in order. */
  function Split(s: string, sep: char): (parts: seq<string>)
    ensures |parts| >= 1
    ensures sep !in s ==> parts == [s]
    ensures sep in s ==> |parts| >= 2
    ensures forall i | 0 <= i < |parts| :: sep !in parts[i]
    decreases |s|
  {
    if |s| == 0 then [""]
    else if s[0] == sep then [""] + Split(s[1..], sep)
    else
      var rest := Split(s[1..], sep);
      assert [s[0]] + s[1..] == s;
      [[s[0]] + rest[0]] + rest[1..]
  }

  /** `parts.join(sep)`. */
  function Join(parts: seq<string>, sep: char): string
  {
    if |parts| == 0 then ""
    else if |parts| == 1 then parts[0]
    else parts[0] + [sep] + Join(parts[1..], sep)
  }

  /** Splitting loses nothing: joining the pieces back gives the original text. */
  lemma {:induction false} JoinSplit(s: string, sep: char)
    ensures Join(Split(s, sep), sep) == s
    decreases |s|
  {
    if |s| == 0 {
    } else if s[0] == sep {
      JoinSplit(s[1..], sep);
      var rest := Split(s[1..], sep);
      assert Split(s, sep) == [""] + rest;
      assert ([""] + rest)[1..] == rest;
      assert s == [sep] + s[1..];
    } else {
      JoinSplit(s[1..], sep);
      var rest := Split(s[1..], sep);
      assert s == [s[0]] + s[1..];
      if |rest| == 1 {
        assert Split(s, sep) == [[s[0]] + rest[0]];
      } else {
        assert Split(s, sep) == [[s[0]] + rest[0]] + rest[1..];
        assert ([[s[0]] + rest[0]] + rest[1..])[1..] == rest[1..];
        assert Join(rest, sep) == rest[0] + [sep] + Join(rest[1..], sep);
      }
    }
  }

  /** The first piece is the text before the first separator; the rest is the split of what follows it. */
  lemma {:induction false} SplitAtFirst(a: string, b: string, sep: char)
    requires sep !in a
    ensures Split(a + [sep] + b, sep) == [a] + Split(b, sep)
    decreases |a|
  {
    if |a| == 0 {
      assert a + [sep] + b == [sep] + b;
      assert ([sep] + b)[1..] == b;
    } else {
      var s := a + [sep] + b;
      assert s[0] == a[0] && a[0] != sep;
      assert s[1..] == a[1..] + [sep] + b;
      SplitAtFirst(a[1..], b, sep);
      var rest := Split(s[1..], sep);
      assert rest == [a[1..]] + Split(b, sep);
      assert Split(s, sep) == [[s[0]] + rest[0]] + rest[1..];
      assert [a[0]] + a[1..] == a;
      assert rest[1..] == Split(b, sep);
    }
  }

  /** Whatever follows a separator does not change the piece in front of it. */
  lemma SplitHead(b: string, rest: string, sep: char)
    requires sep !in b
    requires rest == [] || rest[0] == sep
    ensures Split(b + rest, sep)[0] == b
  {
    if rest == [] {
      assert b + rest == b;
    } else {
      assert b + rest == b + [sep] + rest[1..];
      SplitAtFirst(b, rest[1..], sep);
    }
  }

  /** Text without the separator in front of the split text joins the first piece. */
  lemma {:induction false} SplitFirstPrefix(a: string, t: string, sep: char)
    requires sep !in a
    ensures Split(a + t, sep)[0] == a + Split(t, sep)[0]
    decreases |a|
  {
    if |a| > 0 {
      var s := a + t;
      assert s[0] == a[0] && s[1..] == a[1..] + t;
      SplitFirstPrefix(a[1..], t, sep);
      assert Split(s, sep)[0] == [a[0]] + Split(s[1..], sep)[0];
      assert [a[0]] + a[1..] == a;
    } else {
      assert a + t == t;
    }
  }

  /** Every character of a piece comes from the text that was split. */
  lemma {:induction false} SplitPieceInText(s: string, sep: char, i: nat)
    requires i < |Split(s, sep)|
    ensures forall c | c in Split(s, sep)[i] :: c in s
    decreases |s|
  {
    if |s| == 0 {
    } else if s[0] == sep {
      if i > 0 {
        assert Split(s, sep)[i] == Split(s[1..], sep)[i - 1];
        SplitPieceInText(s[1..], sep, i - 1);
      }
    } else {
      var rest := Split(s[1..], sep);
      SplitPieceInText(s[1..], sep, if i == 0 then 0 else i);
      if i > 0 {
        assert Split(s, sep)[i] == rest[i];
      } else {
        assert Split(s, sep)[0] == [s[0]] + rest[0];
      }
      assert forall c | c in s[1..] :: c in s;
    }
  }

  /** `sub` occurs in `s` starting at index `i`. */
  predicate OccursAt(s: string, sub: string, i: nat)
  {
    i + |sub| <= |s| && s[i..i + |sub|] == sub
  }

  /** `s.includes(sub)`: `sub` occurs at some position of `s`. */
  predicate Contains(s: string, sub: string)
  {
    exists i: nat | i <= |s| :: OccursAt(s, sub, i)
  }

  /** A text cannot contain a pattern that has a character the text lacks. */
  lemma MissingCharNotContained(s: string, sub: string, c: char)
    requires c in sub && c !in s
    ensures !Contains(s, sub)
  {
  }
}

=== FILE: js_values.dfy ===
/**
 * The JavaScript values the services handle: JSON as `JSON.parse` returns it,
 * truthiness, the string a template literal makes of a value, and the values a
 * `catch` clause receives.
 */
module JsValues {
  import opened Wrappers
  import opened JsStrings
  import opened JsNumbers

  /** A JSON value (numbers are restricted to integers). */
  datatype Json =
    | JNull
    | JBool(b: bool)
    | JNumber(n: int)
    | JString(s: string)
    | JArray(items: seq<Json>)
    | JObject(fields: map<string, Json>)

  /**
   * `JSON.parse` and `JSON.stringify`, which the model takes as given:
   * `parse` yields `None` where `JSON.parse` throws.
   */
  datatype JsonCodec = JsonCodec(parse: string -> Option<Json>, stringify: Json -> string)

  /** What every JSON implementation guarantees: `""` is not JSON, and stringified values parse back. */
  ghost predicate WellBehaved(codec: JsonCodec)
  {
    && codec.parse("") == None
    && forall j :: codec.parse(codec.stringify(j)) == Some(j)
  }

  /** JavaScript truthiness of a parsed value. */
  predicate Truthy(j: Json)
  {
    match j
    case JNull => false
    case JBool(b) => b
    case JNumber(n) => n != 0
    case JString(s) => s != ""
    case JArray(_) => true
    case JObject(_) => true
  }

  /**
   * The property read `j.key` on a value that is not `null`: only objects have
   * the keys read here; `None` stands for `undefined`.
   */
  function Property(j: Json, key: string): (r: Option<Json>)
    ensures r.Some? <==> j.JObject? && key in j.fields
    ensures r.Some? ==> r.value == j.fields[key]
  {
    if j.JObject? && key in j.fields then Some(j.fields[key]) else None
  }

  /**
   * The text `${j}` produces: arrays join their elements with commas
   * (`null` elements become empty), objects become "[object Object]".
   */
  function TemplateString(j: Json): string
    decreases j
  {
    match j
    case JNull => "null"
    case JBool(b) => if b then "true" else "false"
    case JNumber(n) => IntToString(n)
    case JString(s) => s
    case JArray(items) =>
      Join(seq(|items|, i requires 0 <= i < |items| =>
             if items[i].JNull? then "" else TemplateString(items[i])), ',')
    case JObject(_) => "[object Object]"
  }

  /**
   * A value caught by a `catch` clause: an `Error` instance with its `message`,
   * or any other value. `text` is what its `toString()` returns and
   * `httpStatus` the `status` of its `httpError` property, when it has one.
   */
  datatype Thrown =
    | ErrorObject(message: string, text: string, httpStatus: Option<int>)
    | OtherValue(text: string, httpStatus: Option<int>)
}

=== FILE: websocket_service.dfy ===
/**
 * The relay client (src/services/websocketService.ts): one socket to the relay
 * at a fixed address, opened with a four-digit pairing code, and a flag that
 * keeps a failed attempt from being reported twice. The module-level `ws` and
 * `connectionErrorHandled` are the fields of `RelayClient`; each socket event
 * is a method call. The callbacks the source invokes are returned, in order,
 * as a sequence of `Call`s.
 */
module WebsocketService {
  import opened Wrappers
  import opened JsNumbers
  import opened JsValues

  const ServerAddress: string := "wss://otakon-relay.onrender.com"
  /** Close codes of section 7.4.1 of RFC 6455. */
  const NormalClosure: int := 1000
  const AbnormalClosure: int := 1006

  const InvalidCodeMessage: string := "Invalid code format. Please enter a 4-digit code."
  const SocketErrorMessage: string :=
    "WebSocket connection error. The server might be unreachable or refusing the connection."
  const AbnormalCloseMessage: string :=
    "Connection failed." + " Please ensure the desktop app is running and the 4-digit code is valid."
  const UnexpectedCloseMessage: string := "Connection closed unexpectedly."
  const DisconnectReason: string := "User disconnected"

  /** `WebSocket.readyState`. */
  datatype ReadyState = Connecting | Open | Closing | Closed

  datatype Socket = Socket(url: string, readyState: ReadyState)

  /** What `onMessage` receives: the parsed JSON, or the raw frame text. */
  datatype Payload = Parsed(value: Json) | Raw(data: string)

  /** One invocation of a caller-supplied callback. */
  datatype Call = OnOpen | OnMessage(payload: Payload) | OnError(message: string) | OnClose

  /** The arguments of a `ws.close(code, reason)` call. */
  datatype CloseRequest = CloseRequest(code: int, reason: string)

  /** The module state: the socket handle and `connectionErrorHandled`. */
  datatype Relay = Relay(ws: Option<Socket>, errorHandled: bool)

  /** The state after an operation, with the callbacks it made. */
  datatype Step = Step(next: Relay, calls: seq<Call>)

  // ------------------------------------------------------------- connecting

  /** The pairing code matches `^\d{4}$`: exactly four ASCII digits. */
  predicate IsValidCode(code: string)
  {
    |code| == 4 && AllDigits(code)
  }

  function RelayUrl(code: string): string
  {
    ServerAddress + "/" + code
  }

  /** The pairing code a relay URL carries. */
  function CodeOfUrl(url: string): Option<string>
  {
    var prefix := ServerAddress + "/";
    if |prefix| <= |url| && url[..|prefix|] == prefix then Some(url[|prefix|..]) else None
  }

  /** The URL names the relay and carries the code, which can be read back from it. */
  lemma RelayUrlCarriesCode(code: string)
    ensures RelayUrl(code)[..|ServerAddress|] == ServerAddress
    ensures CodeOfUrl(RelayUrl(code)) == Some(code)
  {
    var prefix := ServerAddress + "/";
    assert RelayUrl(code) == prefix + code;
  }

  /** A socket that is open or still connecting. */
  predicate IsLive(ws: Option<Socket>)
  {
    ws.Some? && (ws.value.readyState == Open || ws.value.readyState == Connecting)
  }

  function ConnectFailedMessage(e: Thrown): string
  {
    "Connection failed: " + (if e.ErrorObject? then e.message else "An unknown error occurred.")
      + ". Please check the URL and your network connection."
  }

  /**
   * `connect`: nothing while a socket is live; otherwise reset the flag, check
   * the code and open a socket to the relay. `creationError` is what the
   * `WebSocket` constructor throws, if it throws.
   */
  function ConnectStep(r: Relay, code: string, creationError: Option<Thrown>): (s: Step)
    ensures IsLive(r.ws) ==> s == Step(r, [])
    ensures !IsLive(r.ws) ==> !s.next.errorHandled
    ensures !IsLive(r.ws) && !IsValidCode(code) ==> s.next.ws == r.ws && s.calls == [OnError(InvalidCodeMessage)]
    ensures !IsLive(r.ws) && IsValidCode(code) && creationError.Some? ==>
      s.next.ws == r.ws && s.calls == [OnError(ConnectFailedMessage(creationError.value))]
    ensures s.next.ws != r.ws ==>
      && IsValidCode(code) && creationError.None? && s.calls == []
      && s.next.ws == Some(Socket(RelayUrl(code), Connecting))
    ensures |s.calls| <= 1
  {
    if IsLive(r.ws) then Step(r, [])
    else if !IsValidCode(code) then Step(Relay(r.ws, false), [OnError(InvalidCodeMessage)])
    else
      match creationError
      case Some(e) => Step(Relay(r.ws, false), [OnError(ConnectFailedMessage(e))])
      case None => Step(Relay(Some(Socket(RelayUrl(code), Connecting)), false), [])
  }

  /** A call that proceeds past the guard with a valid code opens a socket to the relay for that code. */
  lemma ConnectOpensRelaySocket(r: Relay, code: string)
    requires !IsLive(r.ws) && IsValidCode(code)
    ensures var s := ConnectStep(r, code, None);
      s.next.ws.Some? && s.next.ws.value.readyState == Connecting
      && CodeOfUrl(s.next.ws.value.url) == Some(code) && s == Step(Relay(s.next.ws, false), [])
  {
    RelayUrlCarriesCode(code);
  }

  // ----------------------------------------------------------------- events

  /** `onopen`. The socket in `ws`, if still there, is now open. */
  function OpenStep(r: Relay): (s: Step)
    ensures s.calls == [OnOpen] && s.next.errorHandled == r.errorHandled
    ensures s.next.ws.Some? <==> r.ws.Some?
    ensures r.ws.Some? ==> s.next.ws.value == r.ws.value.(readyState := Open)
  {
    Step(Relay(if r.ws.Some? then Some(r.ws.value.(readyState := Open)) else None, r.errorHandled), [OnOpen])
  }

  /** `onmessage`: one `onMessage`, with the parsed JSON or, failing that, the raw text. */
  function MessageStep(r: Relay, data: string, codec: JsonCodec): (s: Step)
    ensures s.next == r && |s.calls| == 1 && s.calls[0].OnMessage?
    ensures s.calls[0].payload.Raw? <==> codec.parse(data).None?
    ensures s.calls[0].payload.Raw? ==> s.calls[0].payload.data == data
    ensures s.calls[0].payload.Parsed? ==> codec.parse(data) == Some(s.calls[0].payload.value)
  {
    match codec.parse(data)
    case Some(value) => Step(r, [OnMessage(Parsed(value))])
    case None => Step(r, [OnMessage(Raw(data))])
  }

  /** `onerror`: report once, then remember that the attempt has been reported. */
  function ErrorStep(r: Relay): (s: Step)
    ensures s.next == Relay(r.ws, true)
    ensures s.calls == if r.errorHandled then [] else [OnError(SocketErrorMessage)]
  {
    if r.errorHandled then Step(Relay(r.ws, true), [])
    else Step(Relay(r.ws, true), [OnError(SocketErrorMessage)])
  }

  /** The message of an unclean close, chosen by close code and reason. */
  function CloseErrorMessage(code: int, reason: string): (message: string)
    ensures message == AbnormalCloseMessage <==> code == AbnormalClosure
    ensures message == UnexpectedCloseMessage <==> code != AbnormalClosure && reason == ""
    ensures code != AbnormalClosure && reason != "" ==>
      message == "Connection closed: " + reason + " (Code: " + IntToString(code) + ")"
  {
    if code == AbnormalClosure then AbnormalCloseMessage
    else if reason != "" then
      var head := "Connection closed: ";
      var message := head + reason + " (Code: " + IntToString(code) + ")";
      assert message[..|head|] == head;
      assert message[11] == head[11] == 'c' && AbnormalCloseMessage[11] == 'f';
      assert message[17] == head[17] == ':' && UnexpectedCloseMessage[17] == ' ';
      message
    else UnexpectedCloseMessage
  }

  /**
   * `onclose`: an unclean close that no error event has reported is reported;
   * then the handle is dropped and `onClose` runs, always last.
   */
  function CloseStep(r: Relay, code: int, reason: string, wasClean: bool): (s: Step)
    ensures s.next == Relay(None, r.errorHandled)
    ensures |s.calls| >= 1 && s.calls[|s.calls| - 1] == OnClose
    ensures |s.calls| == 2 <==> !wasClean && !r.errorHandled
    ensures |s.calls| == 2 ==> s.calls[0] == OnError(CloseErrorMessage(code, reason))
    ensures |s.calls| <= 2
  {
    var report := if !wasClean && !r.errorHandled then [OnError(CloseErrorMessage(code, reason))] else [];
    Step(Relay(None, r.errorHandled), report + [OnClose])
  }

  /** The events a socket delivers to its handlers. */
  datatype Event =
    | Opened
    | Message(data: string)
    | Error
    | Closed(code: int, reason: string, wasClean: bool)

  function EventStep(r: Relay, e: Event, codec: JsonCodec): Step
  {
    match e
    case Opened => OpenStep(r)
    case Message(data) => MessageStep(r, data, codec)
    case Error => ErrorStep(r)
    case Closed(code, reason, wasClean) => CloseStep(r, code, reason, wasClean)
  }

  /** The events delivered one after the other, with all the callbacks they make. */
  function Run(r: Relay, events: seq<Event>, codec: JsonCodec): Step
    decreases |events|
  {
    if events == [] then Step(r, [])
    else
      var first := EventStep(r, events[0], codec);
      var rest := Run(first.next, events[1..], codec);
      Step(rest.next, first.calls + rest.calls)
  }

  lemma {:induction false} RunSnoc(r: Relay, events: seq<Event>, last: Event, codec: JsonCodec)
    ensures var before := Run(r, events, codec);
      var after := EventStep(before.next, last, codec);
      Run(r, events + [last], codec) == Step(after.next, before.calls + after.calls)
    decreases |events|
  {
    if events == [] {
      assert [] + [last] == [last];
    } else {
      assert (events + [last])[1..] == events[1..] + [last];
      RunSnoc(EventStep(r, events[0], codec).next, events[1..], last, codec);
    }
  }

  /** The number of `onError` calls. */
  function ErrorCount(calls: seq<Call>): nat
  {
    if calls == [] then 0 else (if calls[0].OnError? then 1 else 0) + ErrorCount(calls[1..])
  }

  lemma {:induction false} ErrorCountAppend(a: seq<Call>, b: seq<Call>)
    ensures ErrorCount(a + b) == ErrorCount(a) + ErrorCount(b)
    decreases |a|
  {
    if a == [] {
      assert a + b == b;
    } else {
      assert (a + b)[0] == a[0];
      assert (a + b)[1..] == a[1..] + b;
      ErrorCountAppend(a[1..], b);
    }
  }

  /**
   * Before the close, an attempt reports at most one error, and it has
   * reported one exactly when the flag went from unset to set.
   */
  lemma {:induction false} OpenEventsReportOnce(r: Relay, events: seq<Event>, codec: JsonCodec)
    requires forall i | 0 <= i < |events| :: !events[i].Closed?
    ensures var s := Run(r, events, codec);
      && (r.errorHandled ==> s.next.errorHandled)
      && ErrorCount(s.calls) == (if !r.errorHandled && s.next.errorHandled then 1 else 0)
    decreases |events|
  {
    if events != [] {
      var first := EventStep(r, events[0], codec);
      OpenEventsReportOnce(first.next, events[1..], codec);
      var rest := Run(first.next, events[1..], codec);
      ErrorCountAppend(first.calls, rest.calls);
      assert ErrorCount(first.calls) == (if !r.errorHandled && first.next.errorHandled then 1 else 0);
    }
  }

  /**
   * `onError` is called at most once per connection attempt: by any number
   * of error, message and open events, and the close that ends them.
   */
  lemma AtMostOneErrorPerAttempt(r: Relay, events: seq<Event>, code: int, reason: string,
                                 wasClean: bool, codec: JsonCodec)
    requires forall i | 0 <= i < |events| :: !events[i].Closed?
    ensures ErrorCount(Run(r, events + [Event.Closed(code, reason, wasClean)], codec).calls) <= 1
  {
    var before := Run(r, events, codec);
    var close := CloseStep(before.next, code, reason, wasClean);
    RunSnoc(r, events, Event.Closed(code, reason, wasClean), codec);
    OpenEventsReportOnce(r, events, codec);
    ErrorCountAppend(before.calls, close.calls);
    assert ErrorCount([OnClose]) == 0 by {
      assert [OnClose][1..] == [];
    }
    if |close.calls| == 2 {
      assert close.calls[1..] == [OnClose];
      assert ErrorCount(close.calls) == 1;
    } else {
      assert close.calls == [OnClose];
    }
  }

  // ------------------------------------------------------------ disconnecting

  /** The state after `disconnect`, and the close call it makes on the socket. */
  datatype Disconnection = Disconnection(next: Relay, close: Option<CloseRequest>)

  /** `disconnect`: close a held socket normally and drop the handle. */
  function DisconnectStep(r: Relay): (d: Disconnection)
    ensures d.next == Relay(None, r.errorHandled)
    ensures d.close.Some? <==> r.ws.Some?
    ensures d.close.Some? ==> d.close.value == CloseRequest(NormalClosure, DisconnectReason)
  {
    if r.ws.Some? then Disconnection(Relay(None, r.errorHandled), Some(CloseRequest(NormalClosure, DisconnectReason)))
    else Disconnection(r, None)
  }

  /** Disconnecting twice is disconnecting once: the second call changes and closes nothing. */
  lemma DisconnectIdempotent(r: Relay)
    ensures DisconnectStep(DisconnectStep(r).next) == Disconnection(DisconnectStep(r).next, None)
  {
  }

  // ---------------------------------------------------- the client, as held

  class RelayClient {
    var ws: Option<Socket>
    var connectionErrorHandled: bool

    constructor ()
      ensures ws == None && !connectionErrorHandled
    {
      ws := None;
      connectionErrorHandled := false;
    }

    function State(): Relay
      reads this
    {
      Relay(ws, connectionErrorHandled)
    }

    /** `connect`. */
    method Connect(code: string, creationError: Option<Thrown>) returns (calls: seq<Call>)
      modifies this
      ensures Step(State(), calls) == ConnectStep(old(State()), code, creationError)
    {
      if ws.Some? && (ws.value.readyState == Open || ws.value.readyState == Connecting) {
        return [];
      }
      connectionErrorHandled := false;
      if !IsValidCode(code) {
        return [OnError(InvalidCodeMessage)];
      }
      var fullUrl := RelayUrl(code);
      if creationError.Some? {
        return [OnError(ConnectFailedMessage(creationError.value))];
      }
      ws := Some(Socket(fullUrl, Connecting));
      calls := [];
    }

    /** The socket's `onopen` handler. */
    method HandleOpen() returns (calls: seq<Call>)
      modifies this
      ensures Step(State(), calls) == OpenStep(old(State()))
    {
      if ws.Some? {
        ws := Some(ws.value.(readyState := Open));
      }
      calls := [OnOpen];
    }

    /** The socket's `onmessage` handler. */
    method HandleMessage(data: string, codec: JsonCodec) returns (calls: seq<Call>)
      ensures Step(State(), calls) == MessageStep(State(), data, codec)
    {
      match codec.parse(data) {
        case Some(value) => calls := [OnMessage(Parsed(value))];
        case None => calls := [OnMessage(Raw(data))];
      }
    }

    /** The socket's `onerror` handler. */
    method HandleError() returns (calls: seq<Call>)
      modifies this
      ensures Step(State(), calls) == ErrorStep(old(State()))
    {
      calls := [];
      if !connectionErrorHandled {
        calls := [OnError(SocketErrorMessage)];
        connectionErrorHandled := true;
      }
    }

    /** The socket's `onclose` handler. */
    method HandleClose(code: int, reason: string, wasClean: bool) returns (calls: seq<Call>)
      modifies this
      ensures Step(State(), calls) == CloseStep(old(State()), code, reason, wasClean)
    {
      calls := [];
      if !wasClean && !connectionErrorHandled {
        var errorMessage := UnexpectedCloseMessage;
        if code == AbnormalClosure {
          errorMessage := AbnormalCloseMessage;
        } else if reason != "" {
          errorMessage := "Connection closed: " + reason + " (Code: " + IntToString(code) + ")";
        }
        calls := [OnError(errorMessage)];
      }
      ws := None;
      calls := calls + [OnClose];
    }

    /** `disconnect`; `close` is the call it makes on the socket. */
    method Disconnect() returns (close: Option<CloseRequest>)
      modifies this
      ensures Disconnection(State(), close) == DisconnectStep(old(State()))
    {
      close := None;
      if ws.Some? {
        close := Some(CloseRequest(NormalClosure, DisconnectReason));
        ws := None;
      }
    }
  }
}

=== FILE: wrappers.dfy ===
/** The optional value used where the source has `null`, `undefined` or `NaN`. */
module Wrappers {

  datatype Option<+T> = None | Some(value: T)
}
